=== FILE: README.md ===
# k-means clusters, modelled in Dafny

This project models the core of a small Java k-means engine (package `clustering`).

- **`Cluster`** holds a list of points (`Donnee`) of one fixed dimension. It keeps, per
  dimension, a running count `nb`, a sum `somme`, a mean `moy` and the bounds `min`/`max`.
  `add` and `remove` update these statistics incrementally.
- **`Clustering`** sets up the engine. `init` builds k empty clusters. The constructors
  either take k initial centres or sample them in the data's bounding box (`choisirCentres`).
  `nouveauxCentres` moves every centre to its cluster's mean. `etape` reports whether any
  point changed cluster.
- **`DistanceEuclidienne`** is the default metric: the square root of the sum of squared
  coordinate differences.

Points are `seq<real>`. A Java `double` quotient is a `Ratio`, which is either a finite real
or `NonFinite`: `somme[i] / nb` with `nb == 0` yields NaN or Infinity in Java. A cluster is
an immutable datatype, and each mutating Java method is a function returning the new cluster.

Files:
- `wrappers.dfy`: `Result`.
- `donnee.dfy` (`Donnees`): points, column sums, and `List.remove(Object)`.
- `cluster.dfy` (`Clusters`): the cluster statistics.
- `distance.dfy` (`DistanceEuclidienne`): the sum-of-squares loop.
- `clustering.dfy` (`Clusterings`): the engine set-up, the centre update and the step flag.

Invariants of a cluster, weakest first:
- `WellFormed`: every array has length `dimDonnee`, every member has that dimension, and
  `nb <= |data|`.
- `Bounded`: `min`/`max` bound every member.
- `Consistent`: `nb` is the member count, `somme` the column sums, `moy` the quotients, and
  the cluster is bounded.
- `Tight`: consistent, and every bound is some member's value.

## Model

| member | source | states |
|---|---|---|
| Clusters.New | Kmeans/src/clustering/Cluster.java:26-33 | a new cluster has the requested dimension and no member, and its zero-filled statistics are already consistent and tight |
| Clusters.Size | Kmeans/src/clustering/Cluster.java:104 | `size()` is the number of members whenever the statistics are consistent |
| Clusters.Min | Kmeans/src/clustering/Cluster.java:143-145 | `min()` has one value per dimension, lies below every member, and is a member's value when the cluster is tight |
| Clusters.Max | Kmeans/src/clustering/Cluster.java:151-153 | `max()` has one value per dimension, lies above every member, and is a member's value when the cluster is tight |
| Clusters.Moyenne | Kmeans/src/clustering/Cluster.java:159-161 | `moyenne()` of a consistent non-empty cluster is its barycentre: column sum over member count |
| Clusters.Div | Kmeans/src/clustering/Cluster.java:74 | the double quotient `somme/nb` is non-finite exactly when `nb` is 0; otherwise the quotient times `nb` gives back the sum |
| Clusters.LowerBySpec | Kmeans/src/clustering/Cluster.java:130-136 | the inner scan of `calculMinMax` ends at or below its start and every member, at either its start or a member's value |
| Clusters.RaiseBySpec | Kmeans/src/clustering/Cluster.java:130-136 | the same for the maximum scan |
| Clusters.CalculMinMaxSpec | Kmeans/src/clustering/Cluster.java:123-137 | `calculMinMax(i)` changes only `min`/`max` below dimension `i`. Those bounds then enclose every member. Each is a member's value or, when `nb != 1`, the old bound, which is then only widened. When `nb == 1` the bounds below `i` are first reset to the first member, which can narrow them. Boundedness is preserved |
| Clusters.NbDimensions | Kmeans/src/clustering/Cluster.java:43-49 | `nbDimensions()` is the dimension every member and every statistics array has |
| Clusters.AddSommeTracksColumnSum | Kmeans/src/clustering/Cluster.java:78-86 | when the sums are the members' column sums, `addSomme(d)` turns them into the column sums of the members plus `d` |
| Clusters.NouvelleMoyenneBarycentre | Kmeans/src/clustering/Cluster.java:69-76 | from the members' column sums and count, `nouvelleMoyenne()` gives the barycentre of a non-empty cluster, and a non-finite mean in every dimension of an empty one |
| Clusters.Add | Kmeans/src/clustering/Cluster.java:56-66 | a point of the wrong dimension throws `ClusterException` and nothing changes. Otherwise the point is appended, `nb` grows by one, each sum grows by the point's coordinate, each mean is sum over count, and the bounds enclose every member. While the old count is not 0 the bounds only widen; the first point added to an empty cluster becomes both bounds |
| Clusters.AddKeepsConsistent | Kmeans/src/clustering/Cluster.java:56-62 | adding a point of the right dimension keeps count, column sums, means and bounds in agreement with the members |
| Clusters.AddKeepsTight | Kmeans/src/clustering/Cluster.java:60 | adding a point of the right dimension to a tight cluster keeps it tight: `min`/`max` stay the true minimum and maximum of the members. A bound made stale by the as-written `remove` stays stale while the cluster keeps a member, because `add` then only widens it; once the count is 0, the next `add` resets the bounds to the new point |
| Clusters.PatchBounds | Kmeans/src/clustering/Cluster.java:116 | the bound patch in `remove` leaves the cluster alone unless the removed coordinate equals the stored `min` or `max`. As written it widens the bounds only while the count is not 1, and with the corrected rescan it changes dimension `i` alone |
| Clusters.RemoveDims | Kmeans/src/clustering/Cluster.java:114-119 | the loop of `remove` updates the sum and mean of every dimension it visits, keeps the others, preserves boundedness, and (as written) widens the bounds only while the count is not 1 |
| Clusters.Shrink | Kmeans/src/clustering/Cluster.java:111-112 | `remove` first drops the first equal point from the list and decrements `nb` unconditionally |
| Clusters.Remove | Kmeans/src/clustering/Cluster.java:110-120 | `remove(d)` as written: the first equal member goes; a non-member leaves the list unchanged but `nb` still drops by one. Sums lose `d`'s coordinates. Means are sum over the new count, non-finite once it reaches 0. The bounds still enclose every member, and they are only widened while the new count is not 1 |
| Clusters.RemoveKeepsConsistent | Kmeans/src/clustering/Cluster.java:110-119 | removing a current member keeps count, column sums, means and bounds in agreement with the members |
| Clusters.RemoveLeavesStaleMinimum | Kmeans/src/clustering/Cluster.java:116 | removing 1 from the cluster {1, 2} as written leaves `min` at 1 while the only member is 2: consistent but not tight |
| Clusters.RescanDimSpec | Kmeans/src/clustering/Cluster.java:130-136 | a rescan of one dimension from the first member changes only that dimension and yields bounds attained by members |
| Clusters.RemoveRescanning | Kmeans/src/clustering/Cluster.java:110-120 | the corrected `remove` has the same effect on list, count, sums and means, and keeps the cluster bounded |
| Clusters.RemoveRescanningKeepsConsistent | Kmeans/src/clustering/Cluster.java:110-119 | the corrected removal of a member keeps the statistics consistent |
| Clusters.RemoveRescanningKeepsTight | Kmeans/src/clustering/Cluster.java:122-136 | the corrected removal of a member keeps `min`/`max` the true extrema, as the comment of `calculMinMax` promises |
| Clusters.RemoveRescanningRestoresMinimum | Kmeans/src/clustering/Cluster.java:116 | on the same input as the stale-minimum case, the corrected removal gives `min` 2 |
| Clusters.Replay | Kmeans/src/clustering/Cluster.java:47-49 | no sequence of `add`/`remove` calls changes `dimDonnee`, so `nbDimensions()` keeps the value given to the constructor; boundedness is kept throughout |
| Clusters.ReplayKeepsConsistent | Kmeans/src/clustering/Cluster.java:56-120 | any sequence of adds and removals of members keeps the statistics consistent, with either `remove` |
| Clusters.ReplayRescanningKeepsTight | Kmeans/src/clustering/Cluster.java:56-137 | with the corrected `remove`, any sequence of adds and removals of members keeps the bounds tight |
| Donnees.IndexOf | Kmeans/src/clustering/Cluster.java:111 | the position `List.remove(Object)` acts on is the first point equal to `d` |
| Donnees.RemoveFirstNonMember | Kmeans/src/clustering/Cluster.java:111 | removing a point that is not in the list leaves it unchanged |
| Donnees.RemoveFirstMember | Kmeans/src/clustering/Cluster.java:111 | removing a member drops exactly its first occurrence |
| Donnees.RemoveFirstCount | Kmeans/src/clustering/Cluster.java:111 | removing a member shortens the list by one and takes one copy out of its multiset |
| Donnees.RemoveFirstMembers | Kmeans/src/clustering/Cluster.java:111 | no point appears after a removal that was not there before, and every point other than `d` stays |
| Donnees.RemoveFirstSubset | Kmeans/src/clustering/Cluster.java:111 | `List.remove(Object)` shortens the list by at most one, and every remaining point is one of the original points |
| Donnees.ColumnSumAppend | Kmeans/src/clustering/Cluster.java:82-86 | appending points adds their column sum to the column sum |
| Donnees.ColumnSumRemoveFirst | Kmeans/src/clustering/Cluster.java:117 | removing a member subtracts its coordinate from the column sum |
| DistanceEuclidienne.Valeur | Kmeans/src/clustering/DistanceEuclidienne.java:6-12 | `valeur(d1, d2)` is the square root applied to the sum of squared differences over the dimensions of `d1`; `d2` must have at least as many |
| DistanceEuclidienne.SquaredSumNonNegative | Kmeans/src/clustering/DistanceEuclidienne.java:7-10 | the accumulated sum is never negative |
| DistanceEuclidienne.SquaredSumSymmetric | Kmeans/src/clustering/DistanceEuclidienne.java:8-9 | swapping the two points does not change the sum |
| DistanceEuclidienne.SquaredSumAgreeing | Kmeans/src/clustering/DistanceEuclidienne.java:8-9 | points that agree on every summed dimension, in particular a point and itself, are at squared distance 0 |
| Clusterings.Init | Kmeans/src/clustering/Clustering.java:21-41 | both `init` overloads create exactly k clusters, each empty, of the data's dimension, consistent and tight |
| Clusterings.WithCentres | Kmeans/src/clustering/Clustering.java:82-101 | the explicit-centre constructors store the given centres unchanged, with no check of their number or dimension, next to k fresh clusters and an unseeded generator |
| Clusterings.Scale | Kmeans/src/clustering/Clustering.java:113 | a draw in [0, 1) times a non-negative width lies between 0 and the width |
| Clusterings.Sample | Kmeans/src/clustering/Clustering.java:111-113 | a sampled coordinate `v2 + r*(v1 - v2)` lies in `[v2, v1]` when `0 <= r < 1` and `v2 <= v1` |
| Clusterings.BoundsOrdered | Kmeans/src/clustering/Clustering.java:111-112 | for bounded, non-empty data, `min[j] <= max[j]` in every dimension, so every sampling range is well formed |
| Clusterings.ChoisirCentres | Kmeans/src/clustering/Clustering.java:104-117 | `choisirCentres` fills all k centres with one coordinate per dimension. Each coordinate is the sample from that dimension's range of the data and, for draws in [0, 1), lies inside it |
| Clusterings.WithRandomCentres | Kmeans/src/clustering/Clustering.java:47-75 | the random-centre constructors keep k, the data and the distance, seed the generator, build k fresh clusters, and sample k centres inside the bounding box of bounded non-empty data |
| Clusterings.NouveauxCentres | Kmeans/src/clustering/Clustering.java:121-126 | every centre becomes its cluster's `moyenne()` and nothing else changes. With more centres than clusters the array access throws |
| Clusterings.NouveauxCentresBarycentre | Kmeans/src/clustering/Clustering.java:123 | the new centre of a consistent non-empty cluster is finite and, times the member count, equals the column sum |
| Clusterings.Etape | Kmeans/src/clustering/Clustering.java:130-142 | `etape` returns true exactly when some (point, centre) evaluation reported a change of cluster |

## Left out

- Console output is not modelled: the traces in the constructors, `nouveauxCentres` and `algo`, and `affichage`. These are I/O only.
- The `try/catch ArithmeticException` around the BC/WC ratio in `affichage` is not modelled. Java double division never throws, and the ratio is display only.
- `java.util.Random` is replaced by parameters. The seed only tags the engine (`Hasard`). The `nextDouble()` results come in as `draws`, where `draws[i][j]` is the draw made for coordinate `j` of centre `i`.
- `Math.sqrt` is the caller-supplied function `racine`. `Math.pow(x, 2)` is exact real squaring, with no floating-point rounding anywhere.
- DistanceEuclidienne.SquaredSumAgreeing: only "equal points give 0" is proved. The converse (a zero sum means equal points) needs strict positivity of real squares, which the solver does not establish here.
- `ecartType`, `Cluster.wc`, `Clustering.wc` and `Clustering.bc` are stubs that compute nothing. Their formulas are not invented.
- The nearest-centre decision in `Donnee.evalueChangementCluster` is not modelled: that class is not part of this model. `Etape` takes its answers as the function `aChange`. How the evaluation moves points between clusters is not modelled.
- The `algo` loop (`while (etape()) nouveauxCentres();`) is not modelled: it has no iteration bound and depends on the unmodelled reassignment.
- `get(i)` and the demo `main` of `Cluster` are not modelled: they change no state.
- `iterator()` is not modelled. It returns the live iterator of the member list. A caller's `remove()` through it would drop a member without touching `nb`, `somme` or the bounds. `WellFormed` (`nb <= |data|`) and `Consistent` assume no caller does that.
- Aliasing is not modelled: every value is immutable. The explicit-centre constructors keep the caller's array (Clustering.java:87, 100), and `nouveauxCentres` overwrites its rows in place (Clustering.java:123), so the caller sees the new centres too. The model returns a new engine and leaves the caller's centres alone.
- Whether `min()`, `max()` and `moyenne()` hand out copies is not modelled. They wrap the live arrays in `new Donnee(...)` (Cluster.java:144, 152, 160), and `Donnee` is not part of this model. So a centre taken from `moyenne()` may share the cluster's `moy` array; the model treats it as a snapshot.
- The fields `sd`, `ok` and `premiereDonnee` are not modelled, because no modelled result reads them.
- `Donnee` equality, used by `List.remove(Object)`, is not visible here. Points are compared by value.
- Clusters.New: a negative dimension throws `NegativeArraySizeException` in Java; the model takes `dim` as a `nat`.
- Clusterings.Init: a negative `k` throws `NegativeArraySizeException` in Java; the model takes `k` as a `nat`.
- Clusters.Remove: requires `d` to have at least `dimDonnee` coordinates. A shorter point makes `valeurDim` fail, and that exception is not modelled.
- Clusterings.NouveauxCentres: when it throws, the centres already replaced before the failing index are not returned. Only the exception is modelled.
- Clusterings.ChoisirCentres: requires one draw per coordinate. That is the supply of the random stream, not a check made by the source.
- The statistics are exact reals, so `int` overflow of `nb` and rounding in `somme` are not modelled.

Four behaviours of the code that a caller might not expect, all of which the model follows:
- `add` rescans every dimension through `calculMinMax`.
- `remove` throws nothing for a non-member but still decrements the count.
- The explicit-centre constructors do not validate the centres.
- `moy` is divided by a count that may be 0.

## Findings

| source | as written | input that shows it | evidently intended | confidence | as-written member | corrected member |
|---|---|---|---|---|---|---|
| Kmeans/src/clustering/Cluster.java:116 | when the removed coordinate equals `min[i]` or `max[i]`, `remove` calls `calculMinMax(i)`. That call rescans only dimensions `0..i-1`, and it never touches dimension `i`, so that dimension keeps the removed value as its bound, unless a later dimension's patch resets it at count 1 (the rescan of the lower dimensions widens them while the count is not 1 and resets them to the first member when it is 1) | a 1-dimensional cluster {1, 2}; `remove([1])` leaves `min` at 1 although the only member is 2 | bounds recomputed from the remaining members, as the comment of `calculMinMax` says (smallest and largest value of each dimension over all data) | not executed; high | Clusters.RemoveLeavesStaleMinimum | Clusters.RemoveRescanningKeepsTight |

=== FILE: cluster.dfy ===
/**
 * One cluster of the k-means algorithm (`Cluster.java`): its members and the running
 * statistics kept per dimension -- count, sum, mean, minimum and maximum.
 */
module Clusters {
  import opened Wrappers
  import opened Donnees

  /** A Java double quotient: a finite value, or the NaN/Infinity a division by zero yields. */
  datatype Ratio = Finite(value: real) | NonFinite

  /** `x / n` in double arithmetic, `n` being the int count. */
  function Div(x: real, n: int): (q: Ratio)
    ensures q.NonFinite? <==> n == 0
    ensures q.Finite? ==> q.value * (n as real) == x
  {
    if n == 0 then NonFinite else Finite(x / n as real)
  }

  datatype ClusterException = DimensionMismatch

  /**
   * The fields of a `Cluster` object. `nb` is a Java int that `remove` decrements
   * unconditionally, so it is an `int` that may drift below the list length.
   */
  datatype Cluster = Cluster(
    data: seq<Donnee>,
    dimDonnee: nat,
    min: seq<real>,
    max: seq<real>,
    moy: seq<Ratio>,
    somme: seq<real>,
    nb: int)

  /** Shape facts every operation keeps: arrays of length `dimDonnee`, members of that dimension. */
  predicate WellFormed(c: Cluster)
  {
    && |c.min| == c.dimDonnee && |c.max| == c.dimDonnee
    && |c.moy| == c.dimDonnee && |c.somme| == c.dimDonnee
    && (forall j :: 0 <= j < |c.data| ==> |c.data[j]| == c.dimDonnee)
    && c.nb <= |c.data|
  }

  /** `min` and `max` bound every member in every dimension. */
  predicate Bounded(c: Cluster)
    requires WellFormed(c)
  {
    forall j, n :: 0 <= j < |c.data| && 0 <= n < c.dimDonnee ==>
      c.min[n] <= c.data[j][n] <= c.max[n]
  }

  /** The statistics agree with the membership: count, column sums, means and bounds. */
  predicate Consistent(c: Cluster)
  {
    && WellFormed(c)
    && c.nb == |c.data|
    && (forall n :: 0 <= n < c.dimDonnee ==> c.somme[n] == ColumnSum(c.data, n))
    && (c.nb > 0 ==> forall n :: 0 <= n < c.dimDonnee ==> c.moy[n] == Finite(c.somme[n] / c.nb as real))
    && Bounded(c)
  }

  /** Consistent, and `min`/`max` are the true extrema: each is some member's value. */
  predicate Tight(c: Cluster)
  {
    && Consistent(c)
    && (c.nb > 0 ==> forall n :: 0 <= n < c.dimDonnee ==>
          Attained(c.data, n, c.min[n]) && Attained(c.data, n, c.max[n]))
  }

  /** `new Cluster(dim)`: no member, every array filled with Java's default 0.0. */
  function New(dim: nat): (c: Cluster)
    ensures c.dimDonnee == dim && c.data == [] && c.nb == 0
    ensures Tight(c)
  {
    Cluster([], dim, seq(dim, _ => 0.0), seq(dim, _ => 0.0),
            seq(dim, _ => Finite(0.0)), seq(dim, _ => 0.0), 0)
  }

  /** `nbDimensions()`: the dimension shared by every member and every statistics array. */
  function NbDimensions(c: Cluster): (r: nat)
    ensures WellFormed(c) ==> forall j :: 0 <= j < |c.data| ==> |c.data[j]| == r
    ensures WellFormed(c) ==> |c.min| == r && |c.max| == r && |c.moy| == r && |c.somme| == r
  {
    c.dimDonnee
  }

  /** `size()` reports the counter, which is the member count while the statistics are consistent. */
  function Size(c: Cluster): (r: int)
    ensures Consistent(c) ==> r == |c.data|
  {
    c.nb
  }

  /** `min()`: a lower bound of every member, and the true minimum when the cluster is tight. */
  function Min(c: Cluster): (r: Donnee)
    requires WellFormed(c)
    ensures |r| == c.dimDonnee
    ensures Bounded(c) ==> forall j, n :: 0 <= j < |c.data| && 0 <= n < |r| ==> r[n] <= c.data[j][n]
    ensures Tight(c) && c.nb > 0 ==> forall n :: 0 <= n < |r| ==> Attained(c.data, n, r[n])
  {
    c.min
  }

  /** `max()`: an upper bound of every member, and the true maximum when the cluster is tight. */
  function Max(c: Cluster): (r: Donnee)
    requires WellFormed(c)
    ensures |r| == c.dimDonnee
    ensures Bounded(c) ==> forall j, n :: 0 <= j < |c.data| && 0 <= n < |r| ==> c.data[j][n] <= r[n]
    ensures Tight(c) && c.nb > 0 ==> forall n :: 0 <= n < |r| ==> Attained(c.data, n, r[n])
  {
    c.max
  }

  /** `moyenne()`: the centroid, i.e. the column sums over the member count. */
  function Moyenne(c: Cluster): (r: seq<Ratio>)
    requires WellFormed(c)
    ensures |r| == c.dimDonnee
    ensures Consistent(c) && c.nb > 0 ==>
      forall n :: 0 <= n < |r| ==> r[n] == Finite(ColumnSum(c.data, n) / |c.data| as real)
  {
    c.moy
  }

  /** The inner scan of `calculMinMax` on dimension `n`: lower `m` to each smaller value, in list order. */
  function LowerBy(data: seq<Donnee>, n: nat, m: real): real
    requires HasDim(data, n)
  {
    if |data| == 0 then m
    else LowerBy(data[1..], n, if data[0][n] < m then data[0][n] else m)
  }

  /** The same scan for the maximum. */
  function RaiseBy(data: seq<Donnee>, n: nat, m: real): real
    requires HasDim(data, n)
  {
    if |data| == 0 then m
    else RaiseBy(data[1..], n, if data[0][n] > m then data[0][n] else m)
  }

  /** The scan yields the minimum of `m` and the column: below both, and equal to one of them. */
  lemma {:induction false} LowerBySpec(data: seq<Donnee>, n: nat, m: real)
    requires HasDim(data, n)
    ensures LowerBy(data, n, m) <= m
    ensures forall j :: 0 <= j < |data| ==> LowerBy(data, n, m) <= data[j][n]
    ensures LowerBy(data, n, m) == m || Attained(data, n, LowerBy(data, n, m))
  {
    if |data| > 0 {
      var m' := if data[0][n] < m then data[0][n] else m;
      var r := LowerBy(data, n, m);
      LowerBySpec(data[1..], n, m');
      forall j | 0 <= j < |data|
        ensures r <= data[j][n]
      {
        if j > 0 {
          assert data[j] == data[1..][j - 1];
        }
      }
      if r != m {
        if r == m' {
          assert data[0][n] == r;
        } else {
          var j :| 0 <= j < |data[1..]| && n < |data[1..][j]| && data[1..][j][n] == r;
          assert data[j + 1] == data[1..][j];
        }
      }
    }
  }

  /** The scan yields the maximum of `m` and the column: above both, and equal to one of them. */
  lemma {:induction false} RaiseBySpec(data: seq<Donnee>, n: nat, m: real)
    requires HasDim(data, n)
    ensures m <= RaiseBy(data, n, m)
    ensures forall j :: 0 <= j < |data| ==> data[j][n] <= RaiseBy(data, n, m)
    ensures RaiseBy(data, n, m) == m || Attained(data, n, RaiseBy(data, n, m))
  {
    if |data| > 0 {
      var m' := if data[0][n] > m then data[0][n] else m;
      var r := RaiseBy(data, n, m);
      RaiseBySpec(data[1..], n, m');
      forall j | 0 <= j < |data|
        ensures data[j][n] <= r
      {
        if j > 0 {
          assert data[j] == data[1..][j - 1];
        }
      }
      if r != m {
        if r == m' {
          assert data[0][n] == r;
        } else {
          var j :| 0 <= j < |data[1..]| && n < |data[1..][j]| && data[1..][j][n] == r;
          assert data[j + 1] == data[1..][j];
        }
      }
    }
  }

  /**
   * `calculMinMax(i)`: when the counter is 1, reset dimensions `0..i-1` to the first member;
   * then widen `min`/`max` of dimensions `0..i-1` over all members. Dimensions `i..` are untouched.
   */
  function CalculMinMax(c: Cluster, i: nat): Cluster
    requires WellFormed(c) && i <= c.dimDonnee
  {
    var lo := if c.nb == 1 then c.data[0][..i] + c.min[i..] else c.min;
    var hi := if c.nb == 1 then c.data[0][..i] + c.max[i..] else c.max;
    c.(min := seq(c.dimDonnee, n requires 0 <= n < c.dimDonnee =>
                    if n < i then LowerBy(c.data, n, lo[n]) else lo[n]),
       max := seq(c.dimDonnee, n requires 0 <= n < c.dimDonnee =>
                    if n < i then RaiseBy(c.data, n, hi[n]) else hi[n]))
  }

  /**
   * What `calculMinMax(i)` guarantees: only `min`/`max` of dimensions below `i` change; those
   * then bound every member, and each is a member's value or (counter not 1) the old bound,
   * widened. With a counter of 1 they are first reset to the first member, which can narrow them.
   */
  lemma CalculMinMaxSpec(c: Cluster, i: nat)
    requires WellFormed(c) && i <= c.dimDonnee
    ensures var r := CalculMinMax(c, i);
      WellFormed(r) && r == c.(min := r.min, max := r.max)
    ensures var r := CalculMinMax(c, i);
      forall n :: i <= n < c.dimDonnee ==> r.min[n] == c.min[n] && r.max[n] == c.max[n]
    ensures var r := CalculMinMax(c, i);
      forall j, n :: 0 <= j < |c.data| && 0 <= n < i ==> r.min[n] <= c.data[j][n] <= r.max[n]
    ensures var r := CalculMinMax(c, i);
      forall n :: 0 <= n < i ==>
        && (Attained(c.data, n, r.min[n]) || (c.nb != 1 && r.min[n] == c.min[n]))
        && (Attained(c.data, n, r.max[n]) || (c.nb != 1 && r.max[n] == c.max[n]))
    ensures var r := CalculMinMax(c, i);
      c.nb != 1 ==> forall n :: 0 <= n < i ==> r.min[n] <= c.min[n] && c.max[n] <= r.max[n]
    ensures Bounded(c) ==> Bounded(CalculMinMax(c, i))
  {
    var r := CalculMinMax(c, i);
    forall n | 0 <= n < i
      ensures forall j :: 0 <= j < |c.data| ==> r.min[n] <= c.data[j][n] <= r.max[n]
      ensures Attained(c.data, n, r.min[n]) || (c.nb != 1 && r.min[n] == c.min[n])
      ensures Attained(c.data, n, r.max[n]) || (c.nb != 1 && r.max[n] == c.max[n])
      ensures c.nb != 1 ==> r.min[n] <= c.min[n] && c.max[n] <= r.max[n]
    {
      CalculMinMaxDim(c, i, n);
    }
  }

  /** One rescanned dimension `n < i` of `CalculMinMax`. */
  lemma CalculMinMaxDim(c: Cluster, i: nat, n: nat)
    requires WellFormed(c) && i <= c.dimDonnee && n < i
    ensures var r := CalculMinMax(c, i);
      && (forall j :: 0 <= j < |c.data| ==> r.min[n] <= c.data[j][n] <= r.max[n])
      && (Attained(c.data, n, r.min[n]) || (c.nb != 1 && r.min[n] == c.min[n]))
      && (Attained(c.data, n, r.max[n]) || (c.nb != 1 && r.max[n] == c.max[n]))
      && (c.nb != 1 ==> r.min[n] <= c.min[n] && c.max[n] <= r.max[n])
  {
    var lo := if c.nb == 1 then c.data[0][..i] + c.min[i..] else c.min;
    var hi := if c.nb == 1 then c.data[0][..i] + c.max[i..] else c.max;
    LowerBySpec(c.data, n, lo[n]);
    RaiseBySpec(c.data, n, hi[n]);
    if c.nb == 1 {
      assert lo[n] == c.data[0][n] && hi[n] == c.data[0][n];
    }
  }


  /** `addSomme(d)`: add each coordinate of `d` to the running sum of its dimension. */
  function AddSomme(somme: seq<real>, d: Donnee): seq<real>
    requires |d| <= |somme|
  {
    seq(|somme|, i requires 0 <= i < |somme| => if i < |d| then somme[i] + d[i] else somme[i])
  }

  /** Sums that are the column sums of `data` become those of `data + [d]` after `addSomme(d)`. */
  lemma AddSommeTracksColumnSum(data: seq<Donnee>, somme: seq<real>, d: Donnee)
    requires |d| == |somme| && forall j :: 0 <= j < |data| ==> |data[j]| == |somme|
    requires forall n :: 0 <= n < |somme| ==> somme[n] == ColumnSum(data, n)
    ensures |AddSomme(somme, d)| == |somme|
    ensures forall n :: 0 <= n < |somme| ==> AddSomme(somme, d)[n] == ColumnSum(data + [d], n)
  {
    forall n | 0 <= n < |somme|
      ensures AddSomme(somme, d)[n] == ColumnSum(data + [d], n)
    {
      ColumnSumAppend(data, [d], n);
      assert ColumnSum([d], n) == d[n] + ColumnSum([d][1..], n);
    }
  }

  /** `nouvelleMoyenne()`: every mean recomputed as sum over counter. */
  function NouvelleMoyenne(somme: seq<real>, nb: int): seq<Ratio>
  {
    seq(|somme|, i requires 0 <= i < |somme| => Div(somme[i], nb))
  }

  /**
   * Given the column sums of `data` and its size, `nouvelleMoyenne()` yields the barycentre of a
   * non-empty cluster and a non-finite mean in every dimension of an empty one.
   */
  lemma NouvelleMoyenneBarycentre(data: seq<Donnee>, somme: seq<real>, nb: int)
    requires forall j :: 0 <= j < |data| ==> |data[j]| == |somme|
    requires forall n :: 0 <= n < |somme| ==> somme[n] == ColumnSum(data, n)
    requires nb == |data|
    ensures |NouvelleMoyenne(somme, nb)| == |somme|
    ensures nb == 0 ==> forall n :: 0 <= n < |somme| ==> NouvelleMoyenne(somme, nb)[n] == NonFinite
    ensures nb > 0 ==> forall n :: 0 <= n < |somme| ==>
      NouvelleMoyenne(somme, nb)[n].Finite? &&
      NouvelleMoyenne(somme, nb)[n].value * nb as real == ColumnSum(data, n)
  {
  }

  /**
   * `add(d)`: a point of the wrong dimension raises `ClusterException` before any field
   * changes; otherwise it is appended, the counter grows by one, the sums grow by its
   * coordinates, the means are recomputed and `min`/`max` bound every member.
   */
  function Add(c: Cluster, d: Donnee): (r: Result<Cluster, ClusterException>)
    requires WellFormed(c)
    ensures r.Failure? <==> |d| != c.dimDonnee
    ensures r.Failure? ==> r.error == DimensionMismatch
    ensures r.Success? ==> WellFormed(r.value) && r.value.dimDonnee == c.dimDonnee
    ensures r.Success? ==> r.value.data == c.data + [d] && r.value.nb == c.nb + 1
    ensures r.Success? ==> forall n :: 0 <= n < c.dimDonnee ==>
      r.value.somme[n] == c.somme[n] + d[n] && r.value.moy[n] == Div(r.value.somme[n], r.value.nb)
    ensures r.Success? ==> Bounded(r.value)
    ensures r.Success? && c.nb != 0 ==> forall n :: 0 <= n < c.dimDonnee ==>
      r.value.min[n] <= c.min[n] && c.max[n] <= r.value.max[n]
    ensures r.Success? && c.data == [] && c.nb == 0 ==> forall n :: 0 <= n < c.dimDonnee ==>
      r.value.min[n] == d[n] && r.value.max[n] == d[n]
  {
    if c.dimDonnee != |d| then Failure(DimensionMismatch)
    else
      var c1 := c.(data := c.data + [d], nb := c.nb + 1);
      CalculMinMaxSpec(c1, |d|);
      var c2 := CalculMinMax(c1, |d|);
      var c3 := c2.(somme := AddSomme(c2.somme, d));
      Success(c3.(moy := NouvelleMoyenne(c3.somme, c3.nb)))
  }

  /** Adding a point of the right dimension to a consistent cluster keeps it consistent. */
  lemma AddKeepsConsistent(c: Cluster, d: Donnee)
    requires Consistent(c) && |d| == c.dimDonnee
    ensures Add(c, d).Success? && Consistent(Add(c, d).value)
  {
    var r := Add(c, d).value;
    forall n | 0 <= n < c.dimDonnee
      ensures r.somme[n] == ColumnSum(r.data, n)
    {
      ColumnSumAppend(c.data, [d], n);
      assert [d][1..] == [];
    }
  }

  /** Adding keeps `min`/`max` the true extrema: a full rescan after an addition loses nothing. */
  lemma AddKeepsTight(c: Cluster, d: Donnee)
    requires Tight(c) && |d| == c.dimDonnee
    ensures Add(c, d).Success? && Tight(Add(c, d).value)
  {
    AddKeepsConsistent(c, d);
    var c1 := c.(data := c.data + [d], nb := c.nb + 1);
    CalculMinMaxSpec(c1, |d|);
    var r := Add(c, d).value;
    assert r.min == CalculMinMax(c1, |d|).min && r.max == CalculMinMax(c1, |d|).max;
    forall n | 0 <= n < c.dimDonnee
      ensures Attained(r.data, n, r.min[n]) && Attained(r.data, n, r.max[n])
    {
      if c.nb != 0 {
        if r.min[n] == c.min[n] {
          var j :| 0 <= j < |c.data| && n < |c.data[j]| && c.data[j][n] == c.min[n];
          assert r.data[j] == c.data[j];
        }
        if r.max[n] == c.max[n] {
          var j :| 0 <= j < |c.data| && n < |c.data[j]| && c.data[j][n] == c.max[n];
          assert r.data[j] == c.data[j];
        }
      }
    }
  }

  /**
   * The fix for the as-written `remove`: when the removed value was an extremum of
   * dimension `i`, recompute that dimension's `min`/`max` from scratch over the members.
   */
  function RescanDim(c: Cluster, i: nat): Cluster
    requires WellFormed(c) && i < c.dimDonnee
  {
    if |c.data| == 0 then c
    else c.(min := c.min[i := LowerBy(c.data, i, c.data[0][i])],
            max := c.max[i := RaiseBy(c.data, i, c.data[0][i])])
  }

  /** The rescan touches only dimension `i`, which then holds the true extrema of a non-empty cluster. */
  lemma RescanDimSpec(c: Cluster, i: nat)
    requires WellFormed(c) && i < c.dimDonnee
    ensures var r := RescanDim(c, i);
      WellFormed(r) && r == c.(min := r.min, max := r.max)
    ensures var r := RescanDim(c, i);
      forall n :: 0 <= n < c.dimDonnee && n != i ==> r.min[n] == c.min[n] && r.max[n] == c.max[n]
    ensures var r := RescanDim(c, i);
      forall j :: 0 <= j < |c.data| ==> r.min[i] <= c.data[j][i] <= r.max[i]
    ensures var r := RescanDim(c, i);
      |c.data| > 0 ==> Attained(c.data, i, r.min[i]) && Attained(c.data, i, r.max[i])
    ensures Bounded(c) ==> Bounded(RescanDim(c, i))
  {
    if |c.data| > 0 {
      LowerBySpec(c.data, i, c.data[0][i]);
      RaiseBySpec(c.data, i, c.data[0][i]);
    }
  }

  /**
   * The bound patch in the loop of `remove`, on dimension `i`: when the removed coordinate
   * `v` equals the stored `min` or `max`, call `calculMinMax(i)` as written, or `RescanDim`
   * when `rescan` holds.
   */
  function PatchBounds(c: Cluster, v: real, i: nat, rescan: bool): (r: Cluster)
    requires WellFormed(c) && i < c.dimDonnee
    ensures WellFormed(r) && r == c.(min := r.min, max := r.max)
    ensures Bounded(c) ==> Bounded(r)
    ensures !rescan && c.nb != 1 ==>
      forall n :: 0 <= n < c.dimDonnee ==> r.min[n] <= c.min[n] && c.max[n] <= r.max[n]
    ensures v != c.min[i] && v != c.max[i] ==> r == c
    ensures rescan ==>
      forall n :: 0 <= n < c.dimDonnee && n != i ==> r.min[n] == c.min[n] && r.max[n] == c.max[n]
    ensures rescan && |c.data| > 0 && (v == c.min[i] || v == c.max[i]) ==>
      Attained(c.data, i, r.min[i]) && Attained(c.data, i, r.max[i])
  {
    if v != c.min[i] && v != c.max[i] then c
    else if rescan then RescanDimSpec(c, i); RescanDim(c, i)
    else CalculMinMaxSpec(c, i); CalculMinMax(c, i)
  }

  /**
   * One iteration of the loop of `remove`, on dimension `i`: patch the bounds, then subtract
   * the removed coordinate from the sum and recompute the mean.
   */
  function RemoveDim(c: Cluster, d: Donnee, i: nat, rescan: bool): (r: Cluster)
    requires WellFormed(c) && c.dimDonnee <= |d| && i < c.dimDonnee
    ensures WellFormed(r) && r.data == c.data && r.nb == c.nb && r.dimDonnee == c.dimDonnee
    ensures r.somme == c.somme[i := c.somme[i] - d[i]]
    ensures r.moy == c.moy[i := Div(r.somme[i], c.nb)]
    ensures r.min == PatchBounds(c, d[i], i, rescan).min
    ensures r.max == PatchBounds(c, d[i], i, rescan).max
  {
    var c1 := PatchBounds(c, d[i], i, rescan);
    var s := c1.somme[i] - d[i];
    c1.(somme := c1.somme[i := s], moy := c1.moy[i := Div(s, c1.nb)])
  }

  /** The loop of `remove` over dimensions `i..`. */
  function RemoveDims(c: Cluster, d: Donnee, i: nat, rescan: bool): (r: Cluster)
    requires WellFormed(c) && c.dimDonnee <= |d| && i <= c.dimDonnee
    ensures WellFormed(r) && r.data == c.data && r.nb == c.nb && r.dimDonnee == c.dimDonnee
    ensures forall n :: 0 <= n < i ==> r.somme[n] == c.somme[n] && r.moy[n] == c.moy[n]
    ensures forall n :: i <= n < c.dimDonnee ==>
      r.somme[n] == c.somme[n] - d[n] && r.moy[n] == Div(r.somme[n], c.nb)
    ensures Bounded(c) ==> Bounded(r)
    ensures !rescan && c.nb != 1 ==>
      forall n :: 0 <= n < c.dimDonnee ==> r.min[n] <= c.min[n] && c.max[n] <= r.max[n]
    decreases c.dimDonnee - i
  {
    if i == c.dimDonnee then c
    else
      var c1 := RemoveDim(c, d, i, rescan);
      assert Bounded(c) ==> Bounded(c1) by {
        if Bounded(c) {
          assert Bounded(PatchBounds(c, d[i], i, rescan));
        }
      }
      RemoveDims(c1, d, i + 1, rescan)
  }

  /** The first two statements of `remove`: drop the point from the list and decrement the counter. */
  function Shrink(c: Cluster, d: Donnee): (r: Cluster)
    requires WellFormed(c)
    ensures WellFormed(r) && r == c.(data := r.data, nb := c.nb - 1)
    ensures r.data == RemoveFirst(c.data, d)
    ensures Bounded(c) ==> Bounded(r)
  {
    ShrinkSpec(c, d);
    c.(data := RemoveFirst(c.data, d), nb := c.nb - 1)
  }

  /** Every point left after a removal was a member, so it keeps its dimension and its bounds. */
  lemma ShrinkSpec(c: Cluster, d: Donnee)
    requires WellFormed(c)
    ensures WellFormed(c.(data := RemoveFirst(c.data, d), nb := c.nb - 1))
    ensures Bounded(c) ==> Bounded(c.(data := RemoveFirst(c.data, d), nb := c.nb - 1))
  {
    var r := RemoveFirst(c.data, d);
    RemoveFirstSubset(c.data, d);
    forall j | 0 <= j < |r|
      ensures |r[j]| == c.dimDonnee
      ensures Bounded(c) ==> forall n :: 0 <= n < c.dimDonnee ==> c.min[n] <= r[j][n] <= c.max[n]
    {
      var k :| 0 <= k < |c.data| && c.data[k] == r[j];
    }
  }

  /**
   * `remove(d)` as written: no membership test, so the counter always drops by one; the
   * sums lose `d`'s coordinates and the means are recomputed (non-finite once the counter
   * reaches 0); `min`/`max` remain bounds of the members, widened only while the new counter
   * is not 1.
   */
  function Remove(c: Cluster, d: Donnee): (r: Cluster)
    requires WellFormed(c) && c.dimDonnee <= |d|
    ensures WellFormed(r) && r.dimDonnee == c.dimDonnee
    ensures r.data == RemoveFirst(c.data, d) && r.nb == c.nb - 1
    ensures d !in c.data ==> r.data == c.data
    ensures forall n :: 0 <= n < c.dimDonnee ==>
      r.somme[n] == c.somme[n] - d[n] && r.moy[n] == Div(r.somme[n], r.nb)
    ensures r.nb == 0 ==> forall n :: 0 <= n < c.dimDonnee ==> r.moy[n] == NonFinite
    ensures Bounded(c) ==> Bounded(r)
    ensures r.nb != 1 ==>
      forall n :: 0 <= n < c.dimDonnee ==> r.min[n] <= c.min[n] && c.max[n] <= r.max[n]
  {
    if d in c.data then RemoveDims(Shrink(c, d), d, 0, false)
    else RemoveFirstNonMember(c.data, d); RemoveDims(Shrink(c, d), d, 0, false)
  }

  /** Removing a current member of a consistent cluster keeps it consistent. */
  lemma RemoveKeepsConsistent(c: Cluster, d: Donnee)
    requires Consistent(c) && d in c.data
    ensures Consistent(Remove(c, d))
  {
    var r := Remove(c, d);
    RemoveFirstCount(c.data, d);
    forall n | 0 <= n < c.dimDonnee
      ensures r.somme[n] == ColumnSum(r.data, n)
    {
      ColumnSumRemoveFirst(c.data, d, n);
    }
  }

  /** `remove` with the bounds of dimension `i` rescanned when they may have been lost. */
  function RemoveRescanning(c: Cluster, d: Donnee): (r: Cluster)
    requires WellFormed(c) && c.dimDonnee <= |d|
    ensures WellFormed(r) && r.dimDonnee == c.dimDonnee
    ensures r.data == RemoveFirst(c.data, d) && r.nb == c.nb - 1
    ensures forall n :: 0 <= n < c.dimDonnee ==>
      r.somme[n] == c.somme[n] - d[n] && r.moy[n] == Div(r.somme[n], r.nb)
    ensures Bounded(c) ==> Bounded(r)
  {
    RemoveDims(Shrink(c, d), d, 0, true)
  }

  /** In dimensions `from..to-1`, both bounds of `c` are coordinates of some point of `data`. */
  predicate AttainedIn(data: seq<Donnee>, c: Cluster, from: nat, to: nat)
    requires WellFormed(c) && to <= c.dimDonnee
  {
    forall n :: from <= n < to ==> Attained(data, n, c.min[n]) && Attained(data, n, c.max[n])
  }

  /** Dimensions `i..` of the corrected loop end with bounds attained by the remaining members. */
  lemma {:induction false} RemoveDimsRescanAttained(c: Cluster, d: Donnee, i: nat, before: seq<Donnee>)
    requires WellFormed(c) && c.dimDonnee <= |d| && i <= c.dimDonnee && |c.data| > 0
    requires forall x :: x in before && x != d ==> x in c.data
    requires AttainedIn(c.data, c, 0, i) && AttainedIn(before, c, i, c.dimDonnee)
    ensures AttainedIn(c.data, RemoveDims(c, d, i, true), 0, c.dimDonnee)
    decreases c.dimDonnee - i
  {
    if i < c.dimDonnee {
      var c1 := RemoveDim(c, d, i, true);
      RescanStep(c, d, i, before);
      RemoveDimsRescanAttained(c1, d, i + 1, before);
      RemoveDimsStep(c, d, i, true);
      assert c1.data == c.data && c1.dimDonnee == c.dimDonnee;
      assert AttainedIn(c.data, RemoveDims(c, d, i, true), 0, c.dimDonnee);
    } else {
      assert RemoveDims(c, d, i, true) == c;
      assert AttainedIn(c.data, RemoveDims(c, d, i, true), 0, c.dimDonnee);
    }
  }

  /** The corrected loop unrolled once: dimension `i` first, then the rest. */
  lemma RemoveDimsStep(c: Cluster, d: Donnee, i: nat, rescan: bool)
    requires WellFormed(c) && c.dimDonnee <= |d| && i < c.dimDonnee
    ensures RemoveDims(c, d, i, rescan) == RemoveDims(RemoveDim(c, d, i, rescan), d, i + 1, rescan)
  {
  }

  /** One step of the corrected loop moves dimension `i` from "attained before" to "attained now". */
  lemma RescanStep(c: Cluster, d: Donnee, i: nat, before: seq<Donnee>)
    requires WellFormed(c) && c.dimDonnee <= |d| && i < c.dimDonnee && |c.data| > 0
    requires forall x :: x in before && x != d ==> x in c.data
    requires AttainedIn(c.data, c, 0, i) && AttainedIn(before, c, i, c.dimDonnee)
    ensures var c1 := RemoveDim(c, d, i, true);
      && WellFormed(c1) && c1.data == c.data && c1.dimDonnee == c.dimDonnee
      && AttainedIn(c1.data, c1, 0, i + 1) && AttainedIn(before, c1, i + 1, c1.dimDonnee)
  {
    var c1 := RemoveDim(c, d, i, true);
    var p := PatchBounds(c, d[i], i, true);
    assert c1.min == p.min && c1.max == p.max && c1.data == c.data;
    RescanStepAttained(c, d, i, before);
    forall n | 0 <= n < c.dimDonnee && n != i
      ensures c1.min[n] == c.min[n] && c1.max[n] == c.max[n]
    {
    }
  }

  /** One step of the corrected loop: dimension `i` ends with bounds attained by the remaining members. */
  lemma RescanStepAttained(c: Cluster, d: Donnee, i: nat, before: seq<Donnee>)
    requires WellFormed(c) && c.dimDonnee <= |d| && i < c.dimDonnee && |c.data| > 0
    requires forall x :: x in before && x != d ==> x in c.data
    requires Attained(before, i, c.min[i]) && Attained(before, i, c.max[i])
    ensures var p := PatchBounds(c, d[i], i, true);
      Attained(c.data, i, p.min[i]) && Attained(c.data, i, p.max[i])
  {
    if d[i] != c.min[i] && d[i] != c.max[i] {
      StillAttained(c.data, before, d, i, c.min[i]);
      StillAttained(c.data, before, d, i, c.max[i]);
    }
  }

  /** A value attained by a point other than `d` is still attained once `d` is gone. */
  lemma StillAttained(data: seq<Donnee>, before: seq<Donnee>, d: Donnee, n: nat, v: real)
    requires forall x :: x in before && x != d ==> x in data
    requires Attained(before, n, v) && (n < |d| ==> d[n] != v)
    ensures Attained(data, n, v)
  {
    var j :| 0 <= j < |before| && n < |before[j]| && before[j][n] == v;
    var x := before[j];
    assert x in before && x != d;
    var k :| 0 <= k < |data| && data[k] == x;
  }

  /** Removing a current member of a consistent cluster with the rescan keeps it consistent. */
  lemma RemoveRescanningKeepsConsistent(c: Cluster, d: Donnee)
    requires Consistent(c) && d in c.data
    ensures Consistent(RemoveRescanning(c, d))
  {
    var r := RemoveRescanning(c, d);
    RemoveFirstCount(c.data, d);
    forall n | 0 <= n < c.dimDonnee
      ensures r.somme[n] == ColumnSum(r.data, n)
    {
      ColumnSumRemoveFirst(c.data, d, n);
    }
  }

  /** With the rescan, removing a member of a tight cluster leaves it tight. */
  lemma RemoveRescanningKeepsTight(c: Cluster, d: Donnee)
    requires Tight(c) && d in c.data
    ensures Tight(RemoveRescanning(c, d))
  {
    var r := RemoveRescanning(c, d);
    RemoveRescanningKeepsConsistent(c, d);
    if |r.data| > 0 {
      var s := Shrink(c, d);
      RemoveFirstMembers(c.data, d);
      assert s.min == c.min && s.max == c.max;
      RemoveDimsRescanAttained(s, d, 0, c.data);
      assert r == RemoveDims(s, d, 0, true);
    }
  }

  /** The one-dimensional cluster {1, 2}, with exact statistics. */
  function OneTwo(): (c: Cluster)
    ensures Tight(c)
  {
    var c := Cluster([[1.0], [2.0]], 1, [1.0], [2.0], [Finite(1.5)], [3.0], 2);
    assert Attained(c.data, 0, 1.0) by { assert c.data[0][0] == 1.0; }
    assert Attained(c.data, 0, 2.0) by { assert c.data[1][0] == 2.0; }
    c
  }

  /**
   * Removing the minimum 1 from {1, 2} as written: `calculMinMax(0)` rescans no dimension,
   * so `min` stays 1 while the only member left is 2.
   */
  lemma RemoveLeavesStaleMinimum()
    ensures Remove(OneTwo(), [1.0]).data == [[2.0]]
    ensures Remove(OneTwo(), [1.0]).min == [1.0]
    ensures Consistent(Remove(OneTwo(), [1.0])) && !Tight(Remove(OneTwo(), [1.0]))
  {
    var c := OneTwo();
    RemoveKeepsConsistent(c, [1.0]);
    var s := Shrink(c, [1.0]);
    assert s.data == [[2.0]];
    var r := Remove(c, [1.0]);
    assert r.min == CalculMinMax(s, 0).min;
    assert !Attained(r.data, 0, 1.0);
  }

  /** The same removal with the rescan restores the true minimum 2. */
  lemma RemoveRescanningRestoresMinimum()
    ensures RemoveRescanning(OneTwo(), [1.0]).min == [2.0]
  {
    var c := OneTwo();
    var s := Shrink(c, [1.0]);
    assert s.data == [[2.0]];
    RemoveRescanningKeepsTight(c, [1.0]);
  }

  /** A call a client makes on a cluster: `add(d)` or `remove(d)`. */
  datatype Operation = Ajout(point: Donnee) | Retrait(point: Donnee)

  /** Every `remove` of `ops` passes a point with at least the cluster's dimensions. */
  predicate Removable(ops: seq<Operation>, dim: nat)
  {
    forall k :: 0 <= k < |ops| && ops[k].Retrait? ==> dim <= |ops[k].point|
  }

  /**
   * One call; an `add` that throws leaves the cluster as it was. `rescan` selects the
   * corrected `remove` instead of the one as written.
   */
  function Apply(c: Cluster, op: Operation, rescan: bool): Cluster
    requires WellFormed(c) && (op.Retrait? ==> c.dimDonnee <= |op.point|)
  {
    match op
    case Ajout(d) => (var r := Add(c, d); if r.Success? then r.value else c)
    case Retrait(d) => if rescan then RemoveRescanning(c, d) else Remove(c, d)
  }

  /** Any sequence of calls keeps the shape, and above all the dimension given at construction. */
  function Replay(c: Cluster, ops: seq<Operation>, rescan: bool): (r: Cluster)
    requires WellFormed(c) && Removable(ops, c.dimDonnee)
    ensures WellFormed(r) && r.dimDonnee == c.dimDonnee
    ensures Bounded(c) ==> Bounded(r)
    decreases |ops|
  {
    if |ops| == 0 then c
    else Replay(Apply(c, ops[0], rescan), ops[1..], rescan)
  }

  /** Every `remove` of `ops` targets a point that is a member at that moment. */
  predicate RemovesMembers(c: Cluster, ops: seq<Operation>, rescan: bool)
    requires WellFormed(c) && Removable(ops, c.dimDonnee)
    decreases |ops|
  {
    |ops| == 0 ||
    ((ops[0].Retrait? ==> ops[0].point in c.data) && RemovesMembers(Apply(c, ops[0], rescan), ops[1..], rescan))
  }

  /** The calls after the first still pass points of the cluster's dimension to `remove`. */
  lemma RemovableTail(ops: seq<Operation>, dim: nat)
    requires |ops| > 0 && Removable(ops, dim)
    ensures Removable(ops[1..], dim)
  {
    forall k | 0 <= k < |ops[1..]| && ops[1..][k].Retrait?
      ensures dim <= |ops[1..][k].point|
    {
      assert ops[1..][k] == ops[k + 1];
    }
  }

  /** Statistics stay consistent over any sequence of adds and removals of members. */
  lemma {:induction false} ReplayKeepsConsistent(c: Cluster, ops: seq<Operation>, rescan: bool)
    requires Consistent(c) && Removable(ops, c.dimDonnee) && RemovesMembers(c, ops, rescan)
    ensures Consistent(Replay(c, ops, rescan))
    decreases |ops|
  {
    if |ops| > 0 {
      var d := ops[0].point;
      if ops[0].Retrait? {
        if rescan {
          RemoveRescanningKeepsConsistent(c, d);
        } else {
          RemoveKeepsConsistent(c, d);
        }
      } else if |d| == c.dimDonnee {
        AddKeepsConsistent(c, d);
      }
      var c1 := Apply(c, ops[0], rescan);
      assert Consistent(c1);
      RemovableTail(ops, c1.dimDonnee);
      ReplayKeepsConsistent(c1, ops[1..], rescan);
    }
  }

  /** With the corrected `remove`, `min`/`max` stay the true extrema over any sequence of calls. */
  lemma {:induction false} ReplayRescanningKeepsTight(c: Cluster, ops: seq<Operation>)
    requires Tight(c) && Removable(ops, c.dimDonnee) && RemovesMembers(c, ops, true)
    ensures Tight(Replay(c, ops, true))
    decreases |ops|
  {
    if |ops| > 0 {
      var d := ops[0].point;
      if ops[0].Retrait? {
        RemoveRescanningKeepsTight(c, d);
      } else if |d| == c.dimDonnee {
        AddKeepsTight(c, d);
      }
      var c1 := Apply(c, ops[0], true);
      assert Tight(c1);
      RemovableTail(ops, c1.dimDonnee);
      ReplayRescanningKeepsTight(c1, ops[1..]);
    }
  }
}

=== FILE: clustering.dfy ===
/**
 * The k-means engine of `Clustering.java`: its set-up (the k empty clusters and the initial
 * centres), the centre update, and the change flag of one assignment step.
 */
module Clusterings {
  import opened Wrappers
  import opened Donnees
  import opened Clusters

  /**
   * A centre is a `Donnee` built from Java doubles: a sampled centre is finite, but the mean
   * of a cluster that has lost its last member is not, so coordinates are `Ratio`s.
   */
  type Centre = seq<Ratio>

  /** The engine's `java.util.Random`: created with a caller's seed, or left default. */
  datatype Hasard = Unseeded | Seeded(seed: int)

  /** The metric: the Euclidean default, or one the caller supplies. */
  datatype Distance = Euclidienne | Supplied(valeur: (Donnee, Donnee) -> real)

  /** What `nouveauxCentres` throws when there are more centres than clusters. */
  datatype EngineError = IndexOutOfBounds

  datatype Clustering = Clustering(
    k: nat,
    lesDonnees: Cluster,
    lesClusters: seq<Cluster>,
    lesCentres: seq<Centre>,
    hasard: Hasard,
    distance: Distance)

  /** `init` (both overloads): k fresh clusters, each empty and of the data set's dimension. */
  function Init(k: nat, data: Cluster): (cs: seq<Cluster>)
    ensures |cs| == k
    ensures forall i :: 0 <= i < k ==>
      cs[i].dimDonnee == data.dimDonnee && cs[i].data == [] && cs[i].nb == 0 && Tight(cs[i])
  {
    seq(k, _ => New(data.dimDonnee))
  }

  /**
   * The two explicit-centre constructors: the centres are stored as given, whatever their
   * number or dimension, and the random generator is left unseeded.
   */
  function WithCentres(k: nat, data: Cluster, centres: seq<Centre>, distance: Distance): (e: Clustering)
    ensures e.k == k && e.lesDonnees == data && e.distance == distance
    ensures e.lesCentres == centres
    ensures e.lesClusters == Init(k, data) && e.hasard == Unseeded
  {
    Clustering(k, data, Init(k, data), centres, Unseeded, distance)
  }

  /** A coordinate that is finite and lies in `[lo, hi]`. */
  predicate InRange(c: Ratio, lo: real, hi: real)
  {
    c.Finite? && lo <= c.value <= hi
  }

  /** One sampled coordinate `v2 + r * (v1 - v2)`, between `v2` and `v1` for a draw in `[0, 1)`. */
  function Sample(v2: real, v1: real, r: real): (v: real)
    ensures 0.0 <= r < 1.0 && v2 <= v1 ==> v2 <= v <= v1
  {
    v2 + Scale(r, v1 - v2)
  }

  /** The draw `r` scales the width `w` of a range: the result stays within `[0, w]`. */
  function Scale(r: real, w: real): (s: real)
    ensures 0.0 <= r < 1.0 && 0.0 <= w ==> 0.0 <= s <= w
  {
    ScaledDrawBounds(w, r);
    r * w
  }

  lemma ScaledDrawBounds(w: real, r: real)
    ensures 0.0 <= r < 1.0 && 0.0 <= w ==> 0.0 <= r * w <= w
  {
  }

  /** Every member of a bounded, non-empty cluster sits between `min` and `max`, so they are ordered. */
  lemma BoundsOrdered(c: Cluster)
    requires WellFormed(c) && Bounded(c) && |c.data| > 0
    ensures forall j :: 0 <= j < c.dimDonnee ==> c.min[j] <= c.max[j]
  {
    forall j | 0 <= j < c.dimDonnee
      ensures c.min[j] <= c.max[j]
    {
      assert c.min[j] <= c.data[0][j] <= c.max[j];
    }
  }

  /**
   * `choisirCentres`: centre `i` takes, in dimension `j`, the sample drawn from the data set's
   * range in that dimension. `draws[i][j]` is the `nextDouble()` call made for that coordinate.
   */
  method ChoisirCentres(k: nat, lesDonnees: Cluster, draws: seq<seq<real>>) returns (centres: seq<Centre>)
    requires WellFormed(lesDonnees)
    requires |draws| >= k && forall i :: 0 <= i < k ==> |draws[i]| >= lesDonnees.dimDonnee
    ensures |centres| == k
    ensures forall i :: 0 <= i < k ==> |centres[i]| == lesDonnees.dimDonnee
    ensures forall i, j :: 0 <= i < k && 0 <= j < lesDonnees.dimDonnee ==>
      centres[i][j] == Finite(Sample(lesDonnees.min[j], lesDonnees.max[j], draws[i][j]))
    ensures forall i, j ::
      (0 <= i < k && 0 <= j < lesDonnees.dimDonnee &&
       0.0 <= draws[i][j] < 1.0 && lesDonnees.min[j] <= lesDonnees.max[j]) ==>
      InRange(centres[i][j], lesDonnees.min[j], lesDonnees.max[j])
  {
    var dim := NbDimensions(lesDonnees);
    centres := [];
    var i := 0;
    while i < k
      invariant 0 <= i <= k && |centres| == i
      invariant forall i' :: 0 <= i' < i ==> |centres[i']| == dim
      invariant forall i', j :: 0 <= i' < i && 0 <= j < dim ==>
        centres[i'][j] == Finite(Sample(lesDonnees.min[j], lesDonnees.max[j], draws[i'][j]))
    {
      var leNouveauCentre: Centre := [];
      var j := 0;
      while j < dim
        invariant 0 <= j <= dim && |leNouveauCentre| == j
        invariant forall j' :: 0 <= j' < j ==>
          leNouveauCentre[j'] == Finite(Sample(lesDonnees.min[j'], lesDonnees.max[j'], draws[i][j']))
      {
        var v1 := Max(lesDonnees)[j];
        var v2 := Min(lesDonnees)[j];
        leNouveauCentre := leNouveauCentre + [Finite(Sample(v2, v1, draws[i][j]))];
        j := j + 1;
      }
      centres := centres + [leNouveauCentre];
      i := i + 1;
    }
  }

  /** Every draw used for the first `k` centres lies in `[0, 1)`, as `nextDouble()` guarantees. */
  predicate UnitDraws(draws: seq<seq<real>>, k: nat, dim: nat)
    requires |draws| >= k && forall i :: 0 <= i < k ==> |draws[i]| >= dim
  {
    forall i, j :: 0 <= i < k && 0 <= j < dim ==> 0.0 <= draws[i][j] < 1.0
  }

  /**
   * The two random-centre constructors: k empty clusters, a seeded generator, and k centres
   * sampled inside the data set's bounding box.
   */
  method WithRandomCentres(k: nat, data: Cluster, distance: Distance, random: int, draws: seq<seq<real>>)
    returns (e: Clustering)
    requires WellFormed(data)
    requires |draws| >= k && forall i :: 0 <= i < k ==> |draws[i]| >= data.dimDonnee
    ensures e.k == k && e.lesDonnees == data && e.distance == distance
    ensures e.lesClusters == Init(k, data) && e.hasard == Seeded(random)
    ensures |e.lesCentres| == k
    ensures forall i :: 0 <= i < k ==> |e.lesCentres[i]| == data.dimDonnee
    ensures Bounded(data) && |data.data| > 0 && UnitDraws(draws, k, data.dimDonnee) ==>
      forall i, j :: 0 <= i < k && 0 <= j < data.dimDonnee ==>
        InRange(e.lesCentres[i][j], data.min[j], data.max[j])
  {
    var centres: seq<Centre> := ChoisirCentres(k, data, draws);
    e := Clustering(k, data, Init(k, data), centres, Seeded(random), distance);
    if Bounded(data) && |data.data| > 0 && UnitDraws(draws, k, data.dimDonnee) {
      BoundsOrdered(data);
      forall i, j | 0 <= i < k && 0 <= j < data.dimDonnee
        ensures InRange(e.lesCentres[i][j], data.min[j], data.max[j])
      {
        assert e.lesCentres[i][j] == Finite(Sample(data.min[j], data.max[j], draws[i][j]));
        assert 0.0 <= draws[i][j] < 1.0;
      }
    }
  }

  /**
   * `nouveauxCentres`: every centre becomes its cluster's mean. The loop runs over the
   * centres, so a centre without a cluster makes the array access throw.
   */
  function NouveauxCentres(e: Clustering): (r: Result<Clustering, EngineError>)
    requires forall i :: 0 <= i < |e.lesClusters| ==> WellFormed(e.lesClusters[i])
    ensures r.Failure? <==> |e.lesCentres| > |e.lesClusters|
    ensures r.Failure? ==> r.error == IndexOutOfBounds
    ensures r.Success? ==>
      && r.value == e.(lesCentres := r.value.lesCentres)
      && |r.value.lesCentres| == |e.lesCentres|
      && forall i :: 0 <= i < |e.lesCentres| ==> r.value.lesCentres[i] == Moyenne(e.lesClusters[i])
  {
    if |e.lesCentres| > |e.lesClusters| then Failure(IndexOutOfBounds)
    else Success(e.(lesCentres := seq(|e.lesCentres|, i requires 0 <= i < |e.lesCentres| =>
                                        Moyenne(e.lesClusters[i]))))
  }

  /**
   * After the update, the centre of a consistent, non-empty cluster is its barycentre: in
   * every dimension, the centre times the member count is the members' column sum.
   */
  lemma NouveauxCentresBarycentre(e: Clustering, i: nat)
    requires forall i :: 0 <= i < |e.lesClusters| ==> WellFormed(e.lesClusters[i])
    requires i < |e.lesCentres| <= |e.lesClusters|
    requires Consistent(e.lesClusters[i]) && e.lesClusters[i].nb > 0
    ensures NouveauxCentres(e).Success?
    ensures forall n :: 0 <= n < e.lesClusters[i].dimDonnee ==>
      NouveauxCentres(e).value.lesCentres[i][n].Finite? &&
      NouveauxCentres(e).value.lesCentres[i][n].value * |e.lesClusters[i].data| as real
        == ColumnSum(e.lesClusters[i].data, n)
  {
    var c := e.lesClusters[i];
    var centre := NouveauxCentres(e).value.lesCentres[i];
    forall n | 0 <= n < c.dimDonnee
      ensures centre[n].Finite? && centre[n].value * |c.data| as real == ColumnSum(c.data, n)
    {
      assert centre[n] == Finite(ColumnSum(c.data, n) / |c.data| as real);
    }
  }

  /**
   * `etape`'s flag: each point is evaluated against each centre in turn, and the step reports
   * a change when any of those evaluations moved a point. `aChange(p, i)` is what
   * `aChangeDeCluster()` answers after evaluating point `p` against centre `i`.
   */
  method Etape(e: Clustering, aChange: (nat, nat) -> bool) returns (change: bool)
    ensures change <==> exists p: nat, i: nat ::
      p < |e.lesDonnees.data| && i < |e.lesCentres| && aChange(p, i)
  {
    change := false;
    var p := 0;
    while p < |e.lesDonnees.data|
      invariant 0 <= p <= |e.lesDonnees.data|
      invariant change <==> exists q: nat, i: nat :: q < p && i < |e.lesCentres| && aChange(q, i)
    {
      var i := 0;
      while i < |e.lesCentres|
        invariant 0 <= i <= |e.lesCentres|
        invariant change <==>
          (exists q: nat, i': nat :: q < p && i' < |e.lesCentres| && aChange(q, i')) ||
          (exists i': nat :: i' < i && aChange(p, i'))
      {
        if aChange(p, i) {
          change := true;
        }
        i := i + 1;
      }
      p := p + 1;
    }
  }
}

=== FILE: distance.dfy ===
/** The engine's default metric, `DistanceEuclidienne.java`: square root of a sum of squares. */
module DistanceEuclidienne {
  import opened Donnees

  /** The sum of squared coordinate differences over dimensions `0..n-1`. */
  function SquaredSum(d1: Donnee, d2: Donnee, n: nat): real
    requires n <= |d1| && n <= |d2|
  {
    if n == 0 then 0.0
    else SquaredSum(d1, d2, n - 1) + (d1[n - 1] - d2[n - 1]) * (d1[n - 1] - d2[n - 1])
  }

  /**
   * `valeur(d1, d2)`: the loop runs over the dimensions of `d1` only, so `d2` must have at
   * least as many. `Math.sqrt` is not modelled; it is the parameter `racine`.
   */
  method Valeur(d1: Donnee, d2: Donnee, racine: real -> real) returns (v: real)
    requires |d1| <= |d2|
    ensures v == racine(SquaredSum(d1, d2, |d1|))
  {
    var valeur := 0.0;
    var i := 0;
    while i < |d1|
      invariant 0 <= i <= |d1|
      invariant valeur == SquaredSum(d1, d2, i)
    {
      valeur := valeur + (d1[i] - d2[i]) * (d1[i] - d2[i]);
      i := i + 1;
    }
    v := racine(valeur);
  }

  /** The accumulated sum never goes below zero. */
  lemma {:induction false} SquaredSumNonNegative(d1: Donnee, d2: Donnee, n: nat)
    requires n <= |d1| && n <= |d2|
    ensures SquaredSum(d1, d2, n) >= 0.0
  {
    if n > 0 {
      SquaredSumNonNegative(d1, d2, n - 1);
      var x := d1[n - 1] - d2[n - 1];
      assert x * x >= 0.0;
    }
  }

  /** Swapping the operands does not change the sum. */
  lemma {:induction false} SquaredSumSymmetric(d1: Donnee, d2: Donnee, n: nat)
    requires n <= |d1| && n <= |d2|
    ensures SquaredSum(d1, d2, n) == SquaredSum(d2, d1, n)
  {
    if n > 0 {
      SquaredSumSymmetric(d1, d2, n - 1);
      var x := d1[n - 1] - d2[n - 1];
      assert (d2[n - 1] - d1[n - 1]) * (d2[n - 1] - d1[n - 1]) == (-x) * (-x) == x * x;
    }
  }

  /** Points that agree on every dimension summed are at squared distance zero. */
  lemma {:induction false} SquaredSumAgreeing(d1: Donnee, d2: Donnee, n: nat)
    requires n <= |d1| && n <= |d2|
    requires d1[..n] == d2[..n]
    ensures SquaredSum(d1, d2, n) == 0.0
  {
    if n > 0 {
      assert d1[..n - 1] == d1[..n][..n - 1] && d2[..n - 1] == d2[..n][..n - 1];
      assert d1[n - 1] == d1[..n][n - 1] && d2[n - 1] == d2[..n][n - 1];
      SquaredSumAgreeing(d1, d2, n - 1);
    }
  }
}

=== FILE: donnee.dfy ===
/** Data points (`Donnee`) and the list operations a cluster performs on its members. */
module Donnees {

  /** A data point: one real coordinate per dimension. */
  type Donnee = seq<real>

  /** Every point of `data` has a coordinate at dimension `n`. */
  predicate HasDim(data: seq<Donnee>, n: nat)
  {
    forall j :: 0 <= j < |data| ==> n < |data[j]|
  }

  /** Some point of `data` has the value `v` at dimension `n`. */
  predicate Attained(data: seq<Donnee>, n: nat, v: real)
  {
    exists j :: 0 <= j < |data| && n < |data[j]| && data[j][n] == v
  }

  /** The sum of the coordinates at dimension `n` over all points of `data`. */
  function ColumnSum(data: seq<Donnee>, n: nat): real
    requires HasDim(data, n)
  {
    if |data| == 0 then 0.0 else data[0][n] + ColumnSum(data[1..], n)
  }

  lemma {:induction false} ColumnSumAppend(a: seq<Donnee>, b: seq<Donnee>, n: nat)
    requires HasDim(a, n) && HasDim(b, n)
    ensures HasDim(a + b, n)
    ensures ColumnSum(a + b, n) == ColumnSum(a, n) + ColumnSum(b, n)
  {
    if |a| == 0 {
      assert a + b == b;
    } else {
      assert (a + b)[1..] == a[1..] + b;
      ColumnSumAppend(a[1..], b, n);
    }
  }

  /** Position of the first point equal to `d` in `data`. */
  function IndexOf(data: seq<Donnee>, d: Donnee): (k: nat)
    requires d in data
    ensures k < |data| && data[k] == d && d !in data[..k]
  {
    if data[0] == d then 0
    else
      var k := IndexOf(data[1..], d) + 1;
      assert data[..k] == [data[0]] + data[1..][..k - 1];
      k
  }

  /** `java.util.List.remove(Object)`: drop the first point equal to `d`, if there is one. */
  function RemoveFirst(data: seq<Donnee>, d: Donnee): seq<Donnee>
  {
    if |data| == 0 then []
    else if data[0] == d then data[1..]
    else [data[0]] + RemoveFirst(data[1..], d)
  }

  /** A list without the point is left alone. */
  lemma {:induction false} RemoveFirstNonMember(data: seq<Donnee>, d: Donnee)
    requires d !in data
    ensures RemoveFirst(data, d) == data
  {
    if |data| > 0 {
      assert d !in data[1..];
      RemoveFirstNonMember(data[1..], d);
      assert data == [data[0]] + data[1..];
    }
  }

  /** A removal takes at most one point out, and every point left comes from the list. */
  lemma {:induction false} RemoveFirstSubset(data: seq<Donnee>, d: Donnee)
    ensures |data| - 1 <= |RemoveFirst(data, d)| <= |data|
    ensures forall j :: 0 <= j < |RemoveFirst(data, d)| ==>
      exists k :: 0 <= k < |data| && data[k] == RemoveFirst(data, d)[j]
  {
    if |data| > 0 && data[0] != d {
      RemoveFirstSubset(data[1..], d);
      var r := RemoveFirst(data, d);
      forall j | 0 <= j < |r|
        ensures exists k :: 0 <= k < |data| && data[k] == r[j]
      {
        if j == 0 {
          assert data[0] == r[0];
        } else {
          assert r[j] == RemoveFirst(data[1..], d)[j - 1];
          var k :| 0 <= k < |data[1..]| && data[1..][k] == r[j];
          assert data[k + 1] == r[j];
        }
      }
    } else if |data| > 0 {
      forall j | 0 <= j < |RemoveFirst(data, d)|
        ensures exists k :: 0 <= k < |data| && data[k] == RemoveFirst(data, d)[j]
      {
        assert data[j + 1] == RemoveFirst(data, d)[j];
      }
    }
  }

  /** Removal drops exactly the first occurrence of a member. */
  lemma {:induction false} RemoveFirstMember(data: seq<Donnee>, d: Donnee)
    requires d in data
    ensures RemoveFirst(data, d) == data[..IndexOf(data, d)] + data[IndexOf(data, d) + 1..]
  {
    if data[0] != d {
      assert d in data[1..];
      RemoveFirstMember(data[1..], d);
      var k := IndexOf(data[1..], d);
      assert data[..k + 1] == [data[0]] + data[1..][..k];
      assert data[k + 2..] == data[1..][k + 1..];
    }
  }

  /** Removing a member shortens the list by one and takes exactly one copy of it out. */
  lemma RemoveFirstCount(data: seq<Donnee>, d: Donnee)
    requires d in data
    ensures |RemoveFirst(data, d)| == |data| - 1
    ensures multiset(RemoveFirst(data, d)) + multiset{d} == multiset(data)
  {
    RemoveFirstMember(data, d);
    var k := IndexOf(data, d);
    assert data == data[..k] + [d] + data[k + 1..];
  }

  /** Every point left after a removal was there before, and every other point stays. */
  lemma RemoveFirstMembers(data: seq<Donnee>, d: Donnee)
    ensures forall x :: x in RemoveFirst(data, d) ==> x in data
    ensures forall x :: x in data && x != d ==> x in RemoveFirst(data, d)
  {
    if d in data {
      RemoveFirstCount(data, d);
      forall x | x in RemoveFirst(data, d)
        ensures x in data
      {
        assert x in multiset(RemoveFirst(data, d));
      }
      forall x | x in data && x != d
        ensures x in RemoveFirst(data, d)
      {
        assert x in multiset(data);
      }
    } else {
      RemoveFirstNonMember(data, d);
    }
  }

  /** Removing a member subtracts its coordinate from every column sum. */
  lemma {:induction false} ColumnSumRemoveFirst(data: seq<Donnee>, d: Donnee, n: nat)
    requires HasDim(data, n) && d in data
    ensures HasDim(RemoveFirst(data, d), n)
    ensures ColumnSum(RemoveFirst(data, d), n) == ColumnSum(data, n) - d[n]
  {
    if data[0] == d {
    } else {
      ColumnSumRemoveFirst(data[1..], d, n);
      var r := RemoveFirst(data, d);
      assert r[1..] == RemoveFirst(data[1..], d);
    }
  }
}

=== FILE: wrappers.dfy ===
/** The outcome of an operation that can throw: a value, or the exception it raised. */
module Wrappers {

  datatype Result<+T, +E> = Success(value: T) | Failure(error: E)
}
